=== FILE: README.md ===
# Free-promotion claimer: a Dafny model

This project models the core of `claimer.js`, a script that claims the
currently free promotional offers of an online game store for each
configured account. Three parts carry logic that can be stated exactly, and
each has its own module:

- **Promotion resolver** (`promotions.dfy`, module `PromotionResolver`, with
  lemmas in `promotions_lemmas.dfy`). `freeGamesPromotions` keeps the catalog
  elements whose first promotional-offer window has an entry with a 0% discount
  percentage. It routes each one to the bundle or the product lookup, depending
  on whether it has a category with path `bundles`. It waits for all lookups,
  drops the answers flagged `error`, and projects the rest to
  `{title, id, namespace}`. A bundle answer has `pages` and a product answer has
  `offer`; the model uses the tagged variant `Paginated(pages) | Direct(offer)`.
  The two lookups are function-valued inputs (`Resolver`). Each returns a
  fulfilled answer or a rejection.
- **Cookie translator** (`cookies.dfy`, module `CookieTranslation`, with round
  trips in `cookie_lemmas.dfy`). `getChromeCookie` and `getToughCookie` work on
  JavaScript objects. The model treats an object as a `map<string, Value>`. A
  Date is an integer number of milliseconds, or invalid. Epoch seconds are
  exact reals. `new Date(x)` is ECMAScript's TimeClip: out-of-range values give
  an invalid date, and other values are truncated toward zero.
- **Account run** (`account_run.dfy`, module `AccountRun`) and **process loop**
  (`run_loop.dfy`, module `RunLoop`). Each call to the store client, the
  interactive login adapter or the two-factor library is an outcome supplied in
  advance in an `Env`. The model records the calls the script makes, in order,
  as a trace of `Event`s. It returns a `Status`: completed, or aborted by an
  error that reaches the top-level handler and exits the process with status 1.

`wrappers.dfy` (`Option`, `Result`) and `seqs.dfy` (`find`, `filter` and
`map` over sequences) are shared helpers.

Some points of the source that the model follows exactly:

- `Promise.all` (line 38) rejects the whole call when any lookup rejects; only
  answers with a truthy `error` field are dropped, so a per-offer rejection is
  not swallowed. The model follows the code: a rejection is
  `Failure(LookupRejected)`.
- `offer.pages ? offer.pages[0] : offer` (line 41) with an empty `pages` array
  reads `.offer` of `undefined`. That is a TypeError, which aborts the run
  (`MissingFirstPage`).
- `let { country } = client.account.country` (line 137) reads the `country`
  property of the account's country value. When that value is a plain string,
  the property is `undefined` and the parameter default `"US"` applies. When it
  is null or undefined, the destructuring throws. `CountryOf` models all three
  cases.
- `account.cookies` from the command line is a string. `concat` appends it to
  the shared list as one element (`CookieEntry.Raw`).
- `getToughCookie` on a cookie without `expires` computes
  `new Date(undefined * 1000)`, which is an invalid date, not "no expiry".
  `ToughCookieInit` records this. Nothing else is proved about that case.

## Model

| member | source | states |
|---|---|---|
| Seqs.FindFirst | claimer.js:33-34 | `find`: the index returned is the first one whose element satisfies the callback; `None` exactly when no element does |
| Seqs.Filter | claimer.js:31-33 | `filter`: the result is an order-preserving subsequence of the input; each kept element satisfies the predicate; every satisfying occurrence is kept (equal multiplicities); the length never grows |
| PromotionResolver.IsFreeCandidate | claimer.js:31-33 | an element is a free candidate iff it has promotions, a non-empty window list, and an entry in the first window with discount percentage exactly 0 |
| PromotionResolver.IsBundle | claimer.js:34 | an element is a bundle iff one of its categories has path "bundles" |
| PromotionResolver.Resolve | claimer.js:35-37 | a candidate with a "bundles" category goes to the bundle lookup and any other to the product lookup; both use the element's slug and the requested locale |
| PromotionResolver.AllFulfilled | claimer.js:38 | the join succeeds iff every lookup fulfilled, and then lists the answers one for one and in order; otherwise it fails with a rejection |
| PromotionResolver.Project | claimer.js:40-42 | the title is `productName` when truthy, else `_title`; id and namespace come from the first page's offer for a paginated answer and from the top-level offer otherwise; the projection fails iff the answer is paginated with no pages |
| PromotionResolver.ProjectAll | claimer.js:39-43 | the projection of the kept answers succeeds iff each one projects, and then has one offer per answer, in order |
| PromotionResolver.SettleAndProject | claimer.js:38-43 | after the join and the error filter, at most one offer per lookup comes out |
| PromotionResolver.FreeGamesPromotions | claimer.js:28-44 | the offers returned never outnumber the catalog elements |
| PromotionResolver.ClaimableOffers | claimer.js:31-43 | a one-pass reading of the pipeline: each free element whose lookup fulfils without `error` contributes its projection at its own position; the length is bounded by the catalog |
| PromotionLemmas.PipelineMatchesWalk | claimer.js:31-43 | the source's filter/map/filter/map pipeline and the one-pass reading agree on every catalog: same success, same offers in the same order |
| PromotionLemmas.SettleCons | claimer.js:38-43 | a rejected lookup fails the whole join; an answer flagged `error` contributes nothing; any other answer puts its projection in front of the rest |
| PromotionLemmas.ErrorAnswerIsDropped | claimer.js:38-42 | of three candidates whose second answer carries `error`, exactly the first and third projections come out, in order |
| PromotionLemmas.SelectsOnlyFullyDiscounted | claimer.js:31-33 | a 0% entry in the first window selects an element; a 50% entry, no promotions, or an empty window list does not |
| PromotionLemmas.ShapesProjectAlike | claimer.js:41-42 | a paginated answer whose first page holds an offer reference projects exactly like a direct answer holding that reference |
| CookieTranslation.EpochSeconds | claimer.js:50 | a valid date becomes a number that is exactly its milliseconds divided by 1000; an invalid one becomes NaN |
| CookieTranslation.TimeClip | claimer.js:60 | `new Date(x)` is valid iff `x` is a number within the time-value range, and then is `x` truncated toward zero: at most `x` for non-negative `x`, at least `x` for negative `x`, and strictly within one millisecond of it |
| CookieTranslation.ChromeCookie | claimer.js:46-55 | the copy has `name` equal to the input's `key`; a Date expiry becomes epoch seconds; any other expiry is removed; every other property is unchanged |
| CookieTranslation.ToughCookieInit | claimer.js:57-61 | the copy has `key` equal to the input's `name`; its expiry is always a Date; an in-range seconds value gives a valid date within a millisecond of seconds × 1000; a missing expiry gives an invalid date; every other property is unchanged |
| CookieLemmas.JarRoundTrip | claimer.js:46-62 | jar to browser and back, for a concrete expiry, keeps the key and the same millisecond instant; it differs from the input only by the added `name` |
| CookieLemmas.BrowserRoundTrip | claimer.js:46-62 | browser to jar and back keeps the name and all other properties; the expiry comes back within a millisecond |
| CookieLemmas.BrowserRoundTripExact | claimer.js:46-62 | an expiry that is a whole number of milliseconds comes back exactly |
| AccountRun.AttachTwoFactorCode | claimer.js:87-91 | with a non-empty secret, the account carries the token derived from it and nothing else changes; without one, the account is unchanged |
| AccountRun.CarriedOver | claimer.js:103-115 | the remembered cookie list always exists and extends the old list; it is as long as the old list, the account's own cookies and the jar together |
| AccountRun.RememberCookies | claimer.js:104-114 | the step-by-step accumulation gives exactly the old list (or an empty one), then the account's cookies when present, then every jar cookie translated to browser shape, in order |
| AccountRun.SeedJar | claimer.js:121-125 | one jar insertion per page cookie, in order, each the cookie in jar shape set for its own domain |
| AccountRun.FallbackLogin | claimer.js:99-133 | the adapter sees the cookie list after carry-over; an adapter throw aborts; the seeded cookies, then the adapter's close, then the exchange-code login follow in that order; a failed exchange login aborts |
| AccountRun.EstablishSession | claimer.js:93-133 | the session is up iff init succeeds and either the direct login or the exchange-code login succeeds; init failure aborts before any login; a truthy direct login skips the fallback; the shared cookie list changes only after a remembered failed direct login |
| AccountRun.ClaimEach | claimer.js:140-151 | every offer is purchased exactly once with quantity 1, in order, whatever the other purchases returned or threw |
| AccountRun.ClaimFreeOffers | claimer.js:137-154 | the catalog is fetched for the account's country as both country and allowed list; if the offers resolve, each is purchased once in order and logout follows; otherwise nothing is purchased and logout does not happen |
| AccountRun.RunAccount | claimer.js:86-155 | for one account: the two-factor code reaches the direct login; init failure aborts with only the init call made; after a failed direct login the adapter is handed the cookie list as carried over for this account; exchange-login failure aborts; a logout failure after the claims aborts; the cookie list is carried over exactly when a remembered direct login fails; the run completes iff the offers resolve and logout succeeds; when the offers resolve, all of them are purchased in order before the final logout |
| RunLoop.ApplyCommandLine | claimer.js:75-84 | with arguments, the accounts become exactly one account built from them (its cookies are the command-line text as one raw entry, or none) and looping is off; without arguments, the configuration is kept |
| AccountRun.CountryOf | claimer.js:137 | destructuring fails exactly when the account's country value is null or undefined; a record's own `country` is used when present; a plain string or a record without `country` falls back to the default "US" |
| PromotionResolver.ResolveEach | claimer.js:38 | one lookup per free candidate, in order, each routed as `getOffer` routes it |
| CookieTranslation.ToNumeric | claimer.js:60 | JavaScript's numeric conversion, for non-string values: NaN exactly for undefined, NaN and an invalid date; a number is itself; a valid date is its milliseconds; null and false are 0, true is 1 |
| RunLoop.NextOptions | claimer.js:99-115 | after one account the shared cookie list only grows; an account that does not remember its session leaves the options unchanged |
| RunLoop.RoundOptions | claimer.js:86-155 | after any number of accounts the shared cookie list extends the one the round started with |
| RunLoop.ForgetfulRoundKeepsOptions | claimer.js:103-115 | when none of the accounts run so far remembers its session, the options are exactly those the round started with |
| RunLoop.VisitedAt | claimer.js:86-155 | each account visited in a round has the status and the call trace its own run promises: completed iff the offers resolve and logout succeeds; init failure aborts as such with only the init call; otherwise the direct login carries the account's two-factor code; after a failed direct login the adapter is handed the cookie list the round has carried over up to and including this account; exchange-login and logout failures abort as such; the claims and logout when the offers resolve, no claim otherwise |
| RunLoop.VisitAccount | claimer.js:86-155 | one account of a round: it gets its two-factor code; its status and trace meet what the single-account run promises (completion iff, the named abort reasons, init only on init failure, the two-factor code at the direct login, the adapter handed the options this account leaves, claims then logout); the next options are its carry-over from the options it was given |
| RunLoop.RunRound | claimer.js:86-155 | the accounts run one at a time in order; each visited one has the status and trace its own run promises, with its own two-factor code at the direct login; an account that falls back hands the adapter the cookie list carried over by the accounts before it and itself, so earlier accounts' cookies reach later ones; the round stops right after the first abort and runs every account otherwise; exactly the visited accounts get their two-factor codes; the options after the round are those the visited accounts carry over one after another |
| RunLoop.VisitNext | claimer.js:86-155 | one step of the round's loop: the next account runs from the options the accounts before it left, is recorded as visited, gets its two-factor code, and its carry-over becomes the options the following account starts from |
| RunLoop.RoundLength | claimer.js:86-155 | the number of accounts a round visits: at most all of them, and none only when there are none |
| RunLoop.RoundStopsAtFirstAbort | claimer.js:86-155 | a round that stops at its first abort and has every status fitting its account visits exactly the accounts up to and including the first one that does not complete |
| RunLoop.RoundCompletesIff | claimer.js:86-155 | a round finishes with every account completed iff every account's single-account run completes; a round that does not end in an abort has run every account to completion |
| RunLoop.PlayRound | claimer.js:86-155 | a round visits exactly the accounts up to the first one that does not complete; it ends without abort exactly when every account completes; exactly the visited accounts get their two-factor codes; the cookie list only grows |
| RunLoop.NextRound | claimer.js:74-163 | one pass of the `do` loop: the round plays exactly the accounts `ApplyCommandLine` gives (the command-line account, or the configured ones) and looping follows it; the visited ones get their two-factor codes; exit 1 iff some account of the round does not complete, which is iff the round ends in an abort; otherwise every account completed, and the process exits 0 unless looping continues |
| RunLoop.RunProcess | claimer.js:69-166 | with arguments or without looping, exactly one round runs and the process exits; with no arguments and looping configured the process never exits 0, and keeps looping as long as every round completes; every round before the last had every account complete, so a round with a fatal error ends the process; an exit status is 1 iff some account of the last round does not complete, and 0 otherwise; the observation stops while still looping only after rounds in which every account completed; looping continues only while no argument was given and looping is configured; the cookie list only grows across rounds |

## Left out

- The version check `isUpToDate` (claimer.js:11-26): a network call with only a warning as its effect.
- Logging, `process.exit` and the `setTimeout`-based sleep: the model returns an exit status, and the delay between rounds only separates rounds.
- RunProcess: the endless `do … while (loop)` is observed for as many rounds as outcome lists are supplied (`|envs|`); `StillLooping` marks where the observation stopped.
- The store client, the login adapter, tough-cookie's `Cookie` constructor and jar store, and the two-factor token library are external libraries. Their results are inputs (`Env`, `Resolver`, the `token` function). The model stops at the object handed to `new Cookie`.
- ToNumeric: requires a non-string value, because JavaScript's string-to-number conversion (NaN for a non-numeric string) is not modelled.
- ToughCookieInit: requires the `expires` property not to be a string, for the same reason; browser cookies carry numeric expiries.
- ToughCookieInit: a cookie without `expires` gets an invalid date. The model records this and proves nothing more; it does not treat the cookie as a session cookie.
- Floating point: `getTime() / 1000.0` and `expires * 1000` are exact real arithmetic. Infinite numbers are not among the modelled values.
- The `getAllCookies` callback (claimer.js:110) is a sequential step, and its error argument is ignored. A failure of `getPage`, `cookies()`, `close` or `setCookie` is not modelled.
- The command-line record carries the remember flag already converted; `Boolean(Number(argv[4]))` is not modelled.
- Options fields other than `cookies` pass through to the adapter untouched and are not represented.
- Catalog elements and lookup answers are well-shaped records. A TypeError from a missing nested field (other than an empty `pages` array) is not modelled.
- Purchase receipts and the log messages that tell claimed, already-owned and failed purchases apart are recorded only as the purchase outcome in the trace.

=== FILE: account_run.dfy ===
/** One account's run (claimer.js lines 86-155), as steps over an abstract
    state. Every call into
    the storefront client, the interactive login adapter and the two-factor
    library is an outcome supplied up front in an `Env`; the model records
    what the script asks of them, in order, as a trace of events. */
module AccountRun {
  import opened Wrappers
  import opened Seqs
  import opened CookieTranslation
  import opened PromotionResolver
  import opened PromotionLemmas

  const DefaultCountry: string := "US"
  const DefaultLocale: string := "en-US"

  // ---- Configuration ----

  /** `account.cookies`: missing, a list from the configuration file, or the
      raw string given on the command line. */
  datatype AccountCookies = NoCookies | CookieList(items: seq<Obj>) | CookieText(text: string)

  datatype Account = Account(
    email: string,
    password: Option<string>,
    rememberLastSession: bool,
    secret: Option<string>,
    cookies: AccountCookies,
    twoFactorCode: Option<string>)

  /** An entry of the shared `options.cookies` list: a cookie object, or the
      raw string that `concat` appends when the account's cookies are text. */
  datatype CookieEntry = Stored(cookie: Obj) | Raw(text: string)

  /** The run-wide options; only the cookie list matters to the script. */
  datatype Options = Options(cookies: Option<seq<CookieEntry>>)

  // ---- Outcomes of the opaque calls ----

  datatype LoginOutcome = LoginTruthy | LoginFalsy | LoginThrew
  /** `ClientLoginAdapter.init` then `getExchangeCode`: a code, or a throw. */
  datatype AdapterOutcome = ExchangeCode(code: string) | AdapterThrew
  /** `client.account.country`: null/undefined, a string, or an object. */
  datatype CountryField = CountryUnset | CountryString(s: string) | CountryRecord(country: Option<string>)
  datatype PurchaseOutcome = Claimed(receipt: string) | AlreadyClaimed | PurchaseThrew

  datatype Env = Env(
    initOk: bool,
    directLogin: LoginOutcome,
    jarCookies: seq<Obj>,
    adapter: AdapterOutcome,
    pageCookies: seq<Obj>,
    exchangeLoginOk: bool,
    country: CountryField,
    catalog: Option<seq<CatalogElement>>,
    resolver: Resolver,
    purchase: nat -> PurchaseOutcome,
    logoutOk: bool)

  // ---- What the script does, in order ----

  datatype Event =
    | Init
    | DirectLogin(twoFactorCode: Option<string>)
    | AdapterInit(cookies: Option<seq<CookieEntry>>)
    | SetJarCookie(cookie: Obj, domain: Value)
    | AdapterClose
    | ExchangeLogin(code: string)
    | FetchPromotions(country: string, allowCountries: string, locale: string)
    | Purchase(offer: PromotionOffer, quantity: nat, outcome: PurchaseOutcome)
    | Logout

  /** The errors that escape to the top-level handler (exit status 1). */
  datatype Fatal =
    | InitFailed
    | AdapterFailed
    | ExchangeLoginFailed
    | CountryUnreadable
    | CatalogFailed
    | ResolutionFailed(cause: ResolveError)
    | LogoutFailed

  datatype Status = Completed | Aborted(reason: Fatal)

  // ---- Two-factor code ----

  predicate HasSecret(a: Account) {
    a.secret.Some? && a.secret.value != ""
  }

  /** Lines 87-91: with a non-empty secret, the account carries the token
      derived from it; otherwise it is left as it was. */
  function AttachTwoFactorCode(a: Account, token: string -> string): (r: Account)
    ensures HasSecret(a) ==> r.twoFactorCode == Some(token(a.secret.value))
    ensures !HasSecret(a) ==> r == a
    ensures r.(twoFactorCode := a.twoFactorCode) == a
  {
    if HasSecret(a) then a.(twoFactorCode := Some(token(a.secret.value))) else a
  }

  // ---- Cookie carry-over ----

  /** `account.cookies && account.cookies.length`. */
  predicate HasSuppliedCookies(ac: AccountCookies) {
    match ac
    case NoCookies => false
    case CookieList(items) => |items| > 0
    case CookieText(t) => |t| > 0
  }

  /** What `options.cookies.concat(account.cookies)` appends: the elements of
      a list, or a string as one element. */
  function ConcatOf(ac: AccountCookies): seq<CookieEntry> {
    match ac
    case NoCookies => []
    case CookieList(items) => Map(items, (c: Obj) => Stored(c))
    case CookieText(t) => [Raw(t)]
  }

  /** The account's own contribution to the shared list (line 107-109). */
  function SuppliedCookies(ac: AccountCookies): seq<CookieEntry> {
    if HasSuppliedCookies(ac) then ConcatOf(ac) else []
  }

  function JarEntry(c: Obj): CookieEntry {
    Stored(ChromeCookie(c))
  }

  /** `None` is a prefix of every list; a list is a prefix of its extensions. */
  predicate Extends(before: Option<seq<CookieEntry>>, after: Option<seq<CookieEntry>>) {
    before.None? || (after.Some? && before.value <= after.value)
  }

  /** The shared cookie list after a remembered failed login: the old list
      (empty if there was none), then the account's own cookies, then every
      jar cookie in browser shape. */
  function CarriedOver(options: Options, ac: AccountCookies, jar: seq<Obj>): (r: Options)
    ensures r.cookies.Some?
    ensures Extends(options.cookies, r.cookies)
    ensures |r.cookies.value| == |options.cookies.GetOr([])| + |SuppliedCookies(ac)| + |jar|
  {
    Options(Some(options.cookies.GetOr([]) + SuppliedCookies(ac) + Map(jar, JarEntry)))
  }

  /** Lines 104-114, step by step: create the list if missing, concatenate the
      account's cookies, then push each jar cookie translated. */
  method RememberCookies(options: Options, ac: AccountCookies, jar: seq<Obj>) returns (r: Options)
    ensures r == CarriedOver(options, ac, jar)
  {
    var list := if options.cookies.None? then [] else options.cookies.value;
    if HasSuppliedCookies(ac) {
      list := list + ConcatOf(ac);
    }
    ghost var base := list;
    assert base == options.cookies.GetOr([]) + SuppliedCookies(ac);
    var i := 0;
    while i < |jar|
      invariant 0 <= i <= |jar|
      invariant |list| == |base| + i
      invariant list[..|base|] == base
      invariant forall j :: 0 <= j < i ==> list[|base| + j] == JarEntry(jar[j])
    {
      list := list + [JarEntry(jar[i])];
      i := i + 1;
    }
    PrefixThenMap(list, base, jar, JarEntry);
    r := Options(Some(list));
  }

  /** Every page cookie has a numeric (or absent) expiry, as the browser reports it. */
  predicate PageCookiesNumeric(cookies: seq<Obj>) {
    forall i :: 0 <= i < |cookies| ==> !Get(cookies[i], "expires").Str?
  }

  /** `events` sets each page cookie, in jar shape, for the page cookie's own domain. */
  predicate SeededFrom(events: seq<Event>, page: seq<Obj>)
    requires PageCookiesNumeric(page)
  {
    && |events| == |page|
    && forall j :: 0 <= j < |page| ==>
         events[j] == SetJarCookie(ToughCookieInit(page[j]), Get(page[j], "domain"))
  }

  /** Lines 121-125: each page cookie, in jar shape, is set for its own domain. */
  method SeedJar(page: seq<Obj>) returns (events: seq<Event>)
    requires PageCookiesNumeric(page)
    ensures SeededFrom(events, page)
  {
    events := [];
    var i := 0;
    while i < |page|
      invariant 0 <= i <= |page|
      invariant |events| == i
      invariant forall j :: 0 <= j < i ==>
        events[j] == SetJarCookie(ToughCookieInit(page[j]), Get(page[j], "domain"))
    {
      var cookie := ToughCookieInit(page[i]);
      events := events + [SetJarCookie(cookie, Get(cookie, "domain"))];
      i := i + 1;
    }
  }

  // ---- Session establishment ----

  /** Direct login did not succeed: it returned something falsy or threw. */
  predicate FellBack(env: Env) {
    env.initOk && env.directLogin != LoginTruthy
  }

  predicate LoggedIn(env: Env) {
    && env.initOk
    && (env.directLogin == LoginTruthy || (env.adapter.ExchangeCode? && env.exchangeLoginOk))
  }

  predicate NoClaims(trace: seq<Event>) {
    forall i :: 0 <= i < |trace| ==> !trace[i].Purchase? && !trace[i].Logout?
  }

  /** Lines 103-132, entered after the direct login failed. */
  method FallbackLogin(account: Account, options: Options, env: Env)
    returns (failure: Option<Fatal>, options': Options, trace: seq<Event>)
    requires PageCookiesNumeric(env.pageCookies)
    ensures failure.None? <==> env.adapter.ExchangeCode? && env.exchangeLoginOk
    ensures NoClaims(trace)
    ensures options' ==
      if account.rememberLastSession then CarriedOver(options, account.cookies, env.jarCookies) else options
    ensures |trace| >= 1 && trace[0] == AdapterInit(options'.cookies)
    ensures env.adapter.AdapterThrew? ==> failure == Some(AdapterFailed) && |trace| == 1
    ensures env.adapter.ExchangeCode? && !env.exchangeLoginOk ==> failure == Some(ExchangeLoginFailed)
    ensures env.adapter.ExchangeCode? ==>
      var page := if account.rememberLastSession then env.pageCookies else [];
      && |trace| == 3 + |page|
      && SeededFrom(trace[1..1 + |page|], page)
      && trace[1 + |page|] == AdapterClose
      && trace[2 + |page|] == ExchangeLogin(env.adapter.code)
  {
    options' := options;
    if account.rememberLastSession {
      options' := RememberCookies(options', account.cookies, env.jarCookies);
    }
    trace := [AdapterInit(options'.cookies)];
    match env.adapter {
      case AdapterThrew =>
        failure := Some(AdapterFailed);
      case ExchangeCode(code) =>
        var seeded: seq<Event> := [];
        if account.rememberLastSession {
          seeded := SeedJar(env.pageCookies);
        }
        trace := trace + seeded + [AdapterClose, ExchangeLogin(code)];
        assert trace[1..1 + |seeded|] == seeded;
        failure := if env.exchangeLoginOk then None else Some(ExchangeLoginFailed);
    }
  }

  /** Lines 93-133 for an account that already carries its two-factor code:
      the session is up unless initialisation fails or the fallback fails. */
  method EstablishSession(account: Account, options: Options, env: Env)
    returns (failure: Option<Fatal>, options': Options, trace: seq<Event>)
    requires PageCookiesNumeric(env.pageCookies)
    ensures failure.None? <==> LoggedIn(env)
    ensures failure != Some(LogoutFailed)
    ensures |trace| >= 1 && trace[0] == Init && NoClaims(trace)
    ensures !env.initOk ==> failure == Some(InitFailed) && trace == [Init]
    ensures env.initOk ==> |trace| >= 2 && trace[1] == DirectLogin(account.twoFactorCode)
    ensures env.initOk && env.directLogin == LoginTruthy ==> |trace| == 2
    ensures FellBack(env) ==> |trace| >= 3 && trace[2] == AdapterInit(options'.cookies)
    ensures FellBack(env) && env.adapter.ExchangeCode? && !env.exchangeLoginOk ==>
      failure == Some(ExchangeLoginFailed)
    ensures options' ==
      if FellBack(env) && account.rememberLastSession
      then CarriedOver(options, account.cookies, env.jarCookies) else options
  {
    options' := options;
    trace := [Init];
    if !env.initOk {
      failure := Some(InitFailed);
      return;
    }
    trace := trace + [DirectLogin(account.twoFactorCode)];
    if env.directLogin == LoginTruthy {
      failure := None;
      return;
    }
    var fallback;
    failure, options', fallback := FallbackLogin(account, options, env);
    trace := trace + fallback;
  }

  // ---- Claiming ----

  /** `let { country } = client.account.country`, then the parameter default:
      `None` when the destructuring throws. */
  function CountryOf(f: CountryField): (r: Option<string>)
    ensures r.None? <==> f.CountryUnset?
    ensures f.CountryRecord? && f.country.Some? ==> r == f.country
    ensures f.CountryString? || f == CountryRecord(None) ==> r == Some(DefaultCountry)
  {
    match f
    case CountryUnset => None
    case CountryString(_) => Some(DefaultCountry)
    case CountryRecord(c) => Some(c.GetOr(DefaultCountry))
  }

  /** The offers the account's run resolves, when resolution gets that far,
      read element by element (`PipelineMatchesWalk` equates this reading
      with `FreeGamesPromotions`). */
  function OffersFor(env: Env): Option<seq<PromotionOffer>> {
    if CountryOf(env.country).None? || env.catalog.None? then None
    else match ClaimableOffers(env.catalog.value, DefaultLocale, env.resolver)
      case Failure(_) => None
      case Success(offers) => Some(offers)
  }

  /** Lines 140-151: one purchase of quantity 1 per offer, in order; the
      outcome of one attempt does not stop the next. */
  method ClaimEach(offers: seq<PromotionOffer>, purchase: nat -> PurchaseOutcome) returns (events: seq<Event>)
    ensures |events| == |offers|
    ensures forall i :: 0 <= i < |offers| ==> events[i] == Purchase(offers[i], 1, purchase(i))
  {
    events := [];
    for i := 0 to |offers|
      invariant |events| == i
      invariant forall j :: 0 <= j < i ==> events[j] == Purchase(offers[j], 1, purchase(j))
    {
      var outcome := purchase(i);
      events := events + [Purchase(offers[i], 1, outcome)];
    }
  }

  /** The tail of a trace is the purchase of each offer, in order, then logout,
      and nothing before that tail purchases or logs out. */
  ghost predicate ClaimsThenLogout(trace: seq<Event>, offers: seq<PromotionOffer>, purchase: nat -> PurchaseOutcome) {
    && |trace| >= |offers| + 1
    && NoClaims(trace[..|trace| - |offers| - 1])
    && (forall i :: 0 <= i < |offers| ==> trace[|trace| - |offers| - 1 + i] == Purchase(offers[i], 1, purchase(i)))
    && trace[|trace| - 1] == Logout
  }

  lemma AppendClaims(prefix: seq<Event>, attempts: seq<Event>, offers: seq<PromotionOffer>, purchase: nat -> PurchaseOutcome)
    requires NoClaims(prefix)
    requires |attempts| == |offers|
    requires forall i :: 0 <= i < |offers| ==> attempts[i] == Purchase(offers[i], 1, purchase(i))
    ensures ClaimsThenLogout(prefix + attempts + [Logout], offers, purchase)
  {
    var trace := prefix + attempts + [Logout];
    assert trace[..|trace| - |offers| - 1] == prefix;
    assert forall i :: 0 <= i < |offers| ==> trace[|prefix| + i] == attempts[i];
  }

  /** Lines 137-153 for a logged-in client. */
  method ClaimFreeOffers(env: Env) returns (failure: Option<Fatal>, trace: seq<Event>)
    ensures OffersFor(env).None? ==> NoClaims(trace) && failure.Some? && failure != Some(LogoutFailed)
    ensures CountryOf(env.country).None? ==> failure == Some(CountryUnreadable) && trace == []
    ensures CountryOf(env.country).Some? ==>
      |trace| >= 1 && trace[0] == FetchPromotions(CountryOf(env.country).value, CountryOf(env.country).value, DefaultLocale)
    ensures OffersFor(env).Some? ==>
      && ClaimsThenLogout(trace, OffersFor(env).value, env.purchase)
      && |trace| == |OffersFor(env).value| + 2
      && failure == (if env.logoutOk then None else Some(LogoutFailed))
  {
    trace := [];
    match CountryOf(env.country) {
      case None =>
        failure := Some(CountryUnreadable);
      case Some(country) =>
        trace := [FetchPromotions(country, country, DefaultLocale)];
        match env.catalog {
          case None =>
            failure := Some(CatalogFailed);
          case Some(elements) =>
            PipelineMatchesWalk(elements, DefaultLocale, env.resolver);
            match FreeGamesPromotions(elements, DefaultLocale, env.resolver) {
              case Failure(err) =>
                failure := Some(ResolutionFailed(err));
              case Success(offers) =>
                var attempts := ClaimEach(offers, env.purchase);
                AppendClaims(trace, attempts, offers, env.purchase);
                trace := trace + attempts + [Logout];
                assert ClaimsThenLogout(trace, offers, env.purchase);
                assert OffersFor(env) == Some(offers);
                failure := if env.logoutOk then None else Some(LogoutFailed);
            }
        }
    }
  }

  // ---- One account ----

  lemma PrependSession(session: seq<Event>, claims: seq<Event>, offers: seq<PromotionOffer>, purchase: nat -> PurchaseOutcome)
    requires NoClaims(session)
    requires ClaimsThenLogout(claims, offers, purchase)
    ensures ClaimsThenLogout(session + claims, offers, purchase)
  {
    var trace := session + claims;
    var k := |claims| - |offers| - 1;
    assert trace[..|trace| - |offers| - 1] == session + claims[..k];
  }

  /** Whether the run gets as far as purchasing. */
  predicate ReachesClaims(env: Env) {
    LoggedIn(env) && OffersFor(env).Some?
  }

  /** Lines 87-154: two-factor code, session, claims, logout. */
  method RunAccount(account: Account, options: Options, env: Env, token: string -> string)
    returns (status: Status, account': Account, options': Options, trace: seq<Event>)
    requires PageCookiesNumeric(env.pageCookies)
    ensures account' == AttachTwoFactorCode(account, token)
    ensures |trace| >= 1 && trace[0] == Init
    ensures env.initOk ==> |trace| >= 2 && trace[1] == DirectLogin(account'.twoFactorCode)
    ensures !env.initOk ==> status == Aborted(InitFailed) && trace == [Init]
    ensures FellBack(env) ==> |trace| >= 3 && trace[2] == AdapterInit(options'.cookies)
    ensures FellBack(env) && env.adapter.ExchangeCode? && !env.exchangeLoginOk ==>
      status == Aborted(ExchangeLoginFailed)
    ensures ReachesClaims(env) && !env.logoutOk ==> status == Aborted(LogoutFailed)
    ensures options' ==
      if FellBack(env) && account.rememberLastSession
      then CarriedOver(options, account.cookies, env.jarCookies) else options
    ensures Extends(options.cookies, options'.cookies)
    ensures ReachesClaims(env) ==> ClaimsThenLogout(trace, OffersFor(env).value, env.purchase)
    ensures !ReachesClaims(env) ==> NoClaims(trace) && status.Aborted? && status.reason != LogoutFailed
    ensures status == Completed <==> ReachesClaims(env) && env.logoutOk
  {
    account' := AttachTwoFactorCode(account, token);
    var failure, session;
    failure, options', session := EstablishSession(account', options, env);
    trace := session;
    if failure.Some? {
      status := Aborted(failure.value);
      return;
    }
    var claims;
    failure, claims := ClaimFreeOffers(env);
    trace := session + claims;
    status := if failure.None? then Completed else Aborted(failure.value);
    if ReachesClaims(env) {
      PrependSession(session, claims, OffersFor(env).value, env.purchase);
    } else {
      assert trace[..|session|] == session && trace[|session|..] == claims;
    }
  }
}

=== FILE: cookie_lemmas.dfy ===
/** Round trips between the jar and browser cookie shapes. */
module CookieLemmas {
  import opened CookieTranslation

  /** Jar -> browser -> jar on a cookie with a concrete expiry gives back the
      same key and the same millisecond instant; the only trace of the trip
      is the added `name` (and `key` materialised if it was missing). */
  lemma JarRoundTrip(c: Obj, ms: int)
    requires Get(c, "expires") == Date(Valid(ms))
    requires -MaxTimeValue <= ms <= MaxTimeValue
    ensures !Get(ChromeCookie(c), "expires").Str?
    ensures ToughCookieInit(ChromeCookie(c)) == c["name" := Get(c, "key")]["key" := Get(c, "key")]
  {
    var b := ChromeCookie(c);
    assert b["expires"] == Num(ms as real / 1000.0);
    var r := ToughCookieInit(b);
    var x := ms as real / 1000.0;
    assert x * 1000.0 == ms as real;
    assert r["expires"] == Date(TimeClip(Finite(x * 1000.0)));
    assert Truncate(ms as real) == ms;
    var expected := c["name" := Get(c, "key")]["key" := Get(c, "key")];
    assert r.Keys == expected.Keys;
    assert forall k :: k in r ==> r[k] == expected[k];
  }

  /** Browser -> jar -> browser on a cookie whose expiry is `x` epoch seconds
      keeps the name and every other field, and returns an expiry within a
      millisecond of `x` (truncated toward zero). */
  lemma BrowserRoundTrip(c: Obj, x: real)
    requires Get(c, "expires") == Num(x)
    requires -MaxTimeValue as real <= x * 1000.0 <= MaxTimeValue as real
    ensures Get(ChromeCookie(ToughCookieInit(c)), "name") == Get(c, "name")
    ensures Get(ChromeCookie(ToughCookieInit(c)), "expires").Num?
    ensures -0.001 < Get(ChromeCookie(ToughCookieInit(c)), "expires").n - x < 0.001
    ensures forall k :: k != "key" && k != "name" && k != "expires" ==>
      Get(ChromeCookie(ToughCookieInit(c)), k) == Get(c, k)
  {
    var t := ToughCookieInit(c);
    var ms := t["expires"].time.ms;
    assert -1.0 < ms as real - x * 1000.0 < 1.0;
    var b := ChromeCookie(t);
    assert b["expires"] == Num(ms as real / 1000.0);
  }

  /** An expiry that is already a whole number of milliseconds survives the
      browser -> jar -> browser trip exactly. */
  lemma BrowserRoundTripExact(c: Obj, ms: int)
    requires Get(c, "expires") == Num(ms as real / 1000.0)
    requires -MaxTimeValue <= ms <= MaxTimeValue
    ensures Get(ChromeCookie(ToughCookieInit(c)), "expires") == Get(c, "expires")
  {
    var t := ToughCookieInit(c);
    assert (ms as real / 1000.0) * 1000.0 == ms as real;
    assert Truncate(ms as real) == ms;
    assert t["expires"] == Date(Valid(ms));
  }
}

=== FILE: cookies.dfy ===
/** Cookie translation between the cookie jar's shape (tough-cookie: `key`,
    `expires` as a Date) and the browser's shape (`name`, `expires` as epoch
    seconds), claimer.js lines 46-62. A JavaScript object is a finite map
    from property names to values; time is exact, in integer milliseconds. */
module CookieTranslation {

  /** Largest magnitude of a valid Date's time value (ECMAScript TimeClip). */
  const MaxTimeValue: int := 8_640_000_000_000_000

  /** The time value inside a Date object: milliseconds, or NaN ("Invalid Date"). */
  datatype TimeValue = Valid(ms: int) | Invalid

  /** The JavaScript values a cookie property can hold in this model. Numbers
      are exact reals; `NaN` is kept apart since it arises from invalid dates. */
  datatype Value =
    | Undefined
    | Null
    | Bool(b: bool)
    | Num(n: real)
    | NaN
    | Str(s: string)
    | Date(time: TimeValue)

  type Obj = map<string, Value>

  /** Property read: a missing property reads as `undefined`. */
  function Get(o: Obj, k: string): Value {
    if k in o then o[k] else Undefined
  }

  /** `x / 1000.0` of a Date's `getTime()`. */
  function EpochSeconds(t: TimeValue): (v: Value)
    ensures t.Valid? ==> v.Num? && v.n * 1000.0 == t.ms as real
    ensures t.Invalid? ==> v == NaN
  {
    match t
    case Valid(ms) => Num(ms as real / 1000.0)
    case Invalid => NaN
  }

  /** Rounds toward zero (ToIntegerOrInfinity on a finite number). */
  function Truncate(x: real): (r: int)
    ensures 0.0 <= x ==> r as real <= x < r as real + 1.0
    ensures x < 0.0 ==> r as real - 1.0 < x <= r as real
  {
    if 0.0 <= x then x.Floor else -((-x).Floor)
  }

  /** The number a value converts to under `*` (ToNumber); strings are outside
      this model, so `Str` is ruled out by the callers. */
  datatype Numeric = Finite(r: real) | NotANumber

  function ToNumeric(v: Value): (r: Numeric)
    requires !v.Str?
    ensures r.NotANumber? <==> v.Undefined? || v.NaN? || v == Date(Invalid)
    ensures v.Num? ==> r == Finite(v.n)
    ensures v.Date? && v.time.Valid? ==> r == Finite(v.time.ms as real)
    ensures v.Null? || v == Bool(false) ==> r == Finite(0.0)
    ensures v == Bool(true) ==> r == Finite(1.0)
  {
    match v
    case Undefined => NotANumber
    case Null => Finite(0.0)
    case Bool(b) => Finite(if b then 1.0 else 0.0)
    case Num(n) => Finite(n)
    case NaN => NotANumber
    case Date(t) => if t.Valid? then Finite(t.ms as real) else NotANumber
  }

  /** `new Date(x)` for a number `x` (TimeClip): NaN or out-of-range numbers
      give an invalid date, others are truncated to whole milliseconds. */
  function TimeClip(x: Numeric): (t: TimeValue)
    ensures t.Valid? <==> x.Finite? && -MaxTimeValue as real <= x.r <= MaxTimeValue as real
    ensures t.Valid? ==> -MaxTimeValue <= t.ms <= MaxTimeValue
    ensures t.Valid? ==> -1.0 < t.ms as real - x.r < 1.0
    ensures t.Valid? && 0.0 <= x.r ==> t.ms as real <= x.r
    ensures t.Valid? && x.r < 0.0 ==> x.r <= t.ms as real
  {
    match x
    case NotANumber => Invalid
    case Finite(r) =>
      if -MaxTimeValue as real <= r <= MaxTimeValue as real then Valid(Truncate(r)) else Invalid
  }

  /** `getChromeCookie`: a copy of the jar cookie with `name` set to its `key`
      and a Date expiry turned into epoch seconds; any other expiry is removed. */
  function ChromeCookie(c: Obj): (r: Obj)
    ensures "name" in r && r["name"] == Get(c, "key")
    ensures Get(c, "expires").Date? ==>
      "expires" in r && r["expires"] == EpochSeconds(c["expires"].time)
    ensures !Get(c, "expires").Date? ==> "expires" !in r
    ensures forall k :: k != "name" && k != "expires" ==> (k in r <==> k in c)
    ensures forall k :: k in c && k != "name" && k != "expires" ==> r[k] == c[k]
  {
    var copy := c;
    var named := copy["name" := Get(copy, "key")];
    match Get(named, "expires")
    case Date(t) => named["expires" := EpochSeconds(t)]
    case _ => named - {"expires"}
  }

  /** `getToughCookie` up to the object handed to tough-cookie's `Cookie`
      constructor: a copy with `key` set to its `name` and `expires` replaced
      by `new Date(expires * 1000)`. */
  function ToughCookieInit(c: Obj): (r: Obj)
    requires !Get(c, "expires").Str?
    ensures "key" in r && r["key"] == Get(c, "name")
    ensures "expires" in r && r["expires"].Date?
    ensures Get(c, "expires") == Undefined ==> r["expires"] == Date(Invalid)
    ensures forall x :: Get(c, "expires") == Num(x) && -MaxTimeValue as real <= x * 1000.0 <= MaxTimeValue as real ==>
      r["expires"].time.Valid? && -1.0 < r["expires"].time.ms as real - x * 1000.0 < 1.0
    ensures forall k :: k != "key" && k != "expires" ==> (k in r <==> k in c)
    ensures forall k :: k in c && k != "key" && k != "expires" ==> r[k] == c[k]
  {
    var copy := c;
    var keyed := copy["key" := Get(copy, "name")];
    var millis := match ToNumeric(Get(keyed, "expires"))
      case Finite(x) => Finite(x * 1000.0)
      case NotANumber => NotANumber;
    keyed["expires" := Date(TimeClip(millis))]
  }
}

=== FILE: promotions.dfy ===
/** Promotion selection, routing and projection (`freeGamesPromotions`,
    claimer.js lines 28-44). The storefront's catalog response and its two
    slug lookups are inputs; what the script does with them is modelled here. */
module PromotionResolver {
  import opened Wrappers
  import opened Seqs

  // ---- Raw catalog elements (`data.Catalog.searchStore.elements`) ----

  datatype DiscountSetting = DiscountSetting(discountPercentage: int)
  datatype PromotionEntry = PromotionEntry(discountSetting: DiscountSetting)
  /** One dated promotional-offer window and the discounts it carries. */
  datatype OfferWindow = OfferWindow(promotionalOffers: seq<PromotionEntry>)
  datatype PromotionInfo = PromotionInfo(promotionalOffers: seq<OfferWindow>)
  datatype Category = Category(path: string)

  /** `promotions` is `None` where the element's field is null or missing. */
  datatype CatalogElement = CatalogElement(
    productSlug: string,
    promotions: Option<PromotionInfo>,
    categories: seq<Category>)

  // ---- What the slug lookups return ----

  datatype OfferRef = OfferRef(id: string, namespace: string)
  datatype Page = Page(offer: OfferRef)

  /** A bundle answer carries `pages`; a product answer carries `offer` directly. */
  datatype Shape = Paginated(pages: seq<Page>) | Direct(offer: OfferRef)

  /** A resolved offer: `error` is the truthiness of its `error` field,
      `bundleTitle` its `_title` field. */
  datatype ResolvedOffer = ResolvedOffer(
    error: bool,
    productName: Option<string>,
    bundleTitle: Option<string>,
    shape: Shape)

  /** The settled promise of one lookup. */
  datatype Lookup = Fulfilled(offer: ResolvedOffer) | Rejected

  /** The client's `getBundleForSlug` and `getProductForSlug`, both keyed by
      (slug, locale). */
  datatype Resolver = Resolver(
    bundleForSlug: (string, string) -> Lookup,
    productForSlug: (string, string) -> Lookup)

  /** What the purchase step receives; `title` is `None` for `undefined`. */
  datatype PromotionOffer = PromotionOffer(title: Option<string>, id: string, namespace: string)

  /** Why the whole call throws: a lookup promise rejected (so `Promise.all`
      rejects), or a paginated answer without a first page (a TypeError). */
  datatype ResolveError = LookupRejected | MissingFirstPage

  const BundlesPath: string := "bundles"

  // ---- Selection ----

  predicate IsFreeDiscount(p: PromotionEntry) {
    p.discountSetting.discountPercentage == 0
  }

  /** The filter callback of line 31-33. */
  function IsFreeCandidate(e: CatalogElement): (b: bool)
    ensures b <==>
      && e.promotions.Some?
      && |e.promotions.value.promotionalOffers| > 0
      && exists j :: 0 <= j < |e.promotions.value.promotionalOffers[0].promotionalOffers|
           && e.promotions.value.promotionalOffers[0].promotionalOffers[j].discountSetting.discountPercentage == 0
  {
    && e.promotions.Some?
    && |e.promotions.value.promotionalOffers| > 0
    && FindFirst(e.promotions.value.promotionalOffers[0].promotionalOffers, IsFreeDiscount).Some?
  }

  predicate IsBundleCategory(c: Category) {
    c.path == BundlesPath
  }

  /** `isBundle` of line 34: some category has path "bundles". */
  function IsBundle(e: CatalogElement): (b: bool)
    ensures b <==> exists i :: 0 <= i < |e.categories| && e.categories[i].path == BundlesPath
  {
    FindFirst(e.categories, IsBundleCategory).Some?
  }

  /** `getOffer` of lines 35-37: the bundle lookup for bundles, the product
      lookup otherwise, with the element's slug and the requested locale. */
  function Resolve(e: CatalogElement, locale: string, resolver: Resolver): (r: Lookup)
    ensures (exists i :: 0 <= i < |e.categories| && e.categories[i].path == BundlesPath) ==>
      r == resolver.bundleForSlug(e.productSlug, locale)
    ensures (forall i :: 0 <= i < |e.categories| ==> e.categories[i].path != BundlesPath) ==>
      r == resolver.productForSlug(e.productSlug, locale)
  {
    if IsBundle(e) then resolver.bundleForSlug(e.productSlug, locale)
    else resolver.productForSlug(e.productSlug, locale)
  }

  // ---- Joining the lookups ----

  /** `Promise.all`: every value when all lookups fulfilled, a rejection otherwise. */
  function AllFulfilled(ls: seq<Lookup>): (r: Result<seq<ResolvedOffer>, ResolveError>)
    ensures r.Success? <==> forall i :: 0 <= i < |ls| ==> ls[i].Fulfilled?
    ensures r.Failure? ==> r.error == LookupRejected
    ensures r.Success? ==> |r.value| == |ls| && forall i :: 0 <= i < |ls| ==> r.value[i] == ls[i].offer
  {
    if |ls| == 0 then Success([])
    else match ls[0]
      case Rejected => Failure(LookupRejected)
      case Fulfilled(o) =>
        match AllFulfilled(ls[1..])
        case Failure(err) => Failure(err)
        case Success(rest) => Success([o] + rest)
  }

  // ---- Projection ----

  /** JavaScript truthiness of an optional string. */
  predicate Truthy(s: Option<string>) {
    s.Some? && s.value != ""
  }

  predicate NoError(o: ResolvedOffer) {
    !o.error
  }

  /** `offer.pages ? offer.pages[0] : offer`, then its `.offer`. */
  function OfferSource(s: Shape): Option<OfferRef> {
    match s
    case Direct(ref) => Some(ref)
    case Paginated(pages) => if |pages| == 0 then None else Some(pages[0].offer)
  }

  /** The object literal of lines 40-42. */
  function Project(o: ResolvedOffer): (r: Result<PromotionOffer, ResolveError>)
    ensures r.Failure? <==> o.shape.Paginated? && |o.shape.pages| == 0
    ensures r.Failure? ==> r.error == MissingFirstPage
    ensures r.Success? && Truthy(o.productName) ==> r.value.title == o.productName
    ensures r.Success? && !Truthy(o.productName) ==> r.value.title == o.bundleTitle
    ensures r.Success? && o.shape.Direct? ==>
      r.value.id == o.shape.offer.id && r.value.namespace == o.shape.offer.namespace
    ensures r.Success? && o.shape.Paginated? ==>
      r.value.id == o.shape.pages[0].offer.id && r.value.namespace == o.shape.pages[0].offer.namespace
  {
    match OfferSource(o.shape)
    case None => Failure(MissingFirstPage)
    case Some(ref) =>
      var title := if Truthy(o.productName) then o.productName else o.bundleTitle;
      Success(PromotionOffer(title, ref.id, ref.namespace))
  }

  /** `.map(project)`: stops at the first projection that throws. */
  function ProjectAll(os: seq<ResolvedOffer>): (r: Result<seq<PromotionOffer>, ResolveError>)
    ensures r.Success? <==> forall i :: 0 <= i < |os| ==> Project(os[i]).Success?
    ensures r.Success? ==> |r.value| == |os| && forall i :: 0 <= i < |os| ==> r.value[i] == Project(os[i]).value
  {
    if |os| == 0 then Success([])
    else match Project(os[0])
      case Failure(err) => Failure(err)
      case Success(head) =>
        match ProjectAll(os[1..])
        case Failure(err) => Failure(err)
        case Success(rest) => Success([head] + rest)
  }

  /** `free.map(getOffer)`: one lookup per candidate, in order. */
  function ResolveEach(candidates: seq<CatalogElement>, locale: string, resolver: Resolver): (r: seq<Lookup>)
    ensures |r| == |candidates|
    ensures forall i :: 0 <= i < |candidates| ==> r[i] == Resolve(candidates[i], locale, resolver)
  {
    if |candidates| == 0 then []
    else [Resolve(candidates[0], locale, resolver)] + ResolveEach(candidates[1..], locale, resolver)
  }

  /** Lines 38-43 after the lookups were issued: await them all, drop the
      answers flagged `error`, project the rest. */
  function SettleAndProject(lookups: seq<Lookup>): (r: Result<seq<PromotionOffer>, ResolveError>)
    ensures r.Success? ==> |r.value| <= |lookups|
  {
    match AllFulfilled(lookups)
    case Failure(err) => Failure(err)
    case Success(resolved) => ProjectAll(Filter(resolved, NoError))
  }

  /** `freeGamesPromotions` after the catalog request: select the free
      elements, resolve them all, drop answers flagged `error`, project. */
  function FreeGamesPromotions(elements: seq<CatalogElement>, locale: string, resolver: Resolver)
    : (r: Result<seq<PromotionOffer>, ResolveError>)
    ensures r.Success? ==> |r.value| <= |elements|
  {
    SettleAndProject(ResolveEach(Filter(elements, IsFreeCandidate), locale, resolver))
  }

  // ---- An independent, element-at-a-time reading of the same pipeline ----

  /** Walks the catalog once: a free element whose lookup fulfils without an
      error contributes its projection at its own position; any rejected
      lookup or page-less bundle makes the whole call fail. */
  function ClaimableOffers(elements: seq<CatalogElement>, locale: string, resolver: Resolver)
    : (r: Result<seq<PromotionOffer>, ResolveError>)
    ensures r.Success? ==> |r.value| <= |elements|
  {
    if |elements| == 0 then Success([])
    else
      var rest := ClaimableOffers(elements[1..], locale, resolver);
      var e := elements[0];
      if !IsFreeCandidate(e) then rest
      else match Resolve(e, locale, resolver)
        case Rejected => Failure(LookupRejected)
        case Fulfilled(o) =>
          if o.error then rest
          else match Project(o)
            case Failure(err) => Failure(err)
            case Success(offer) =>
              match rest
              case Failure(err) => Failure(err)
              case Success(tail) => Success([offer] + tail)
  }
}

=== FILE: promotions_lemmas.dfy ===
/** Properties of the promotion pipeline that relate several calls. */
module PromotionLemmas {
  import opened Wrappers
  import opened Seqs
  import opened PromotionResolver

  /** Settling one more lookup in front: a rejection fails the whole join, an
      answer flagged `error` contributes nothing, any other answer contributes
      its projection at the front. */
  lemma SettleCons(l: Lookup, rest: seq<Lookup>)
    ensures l.Rejected? ==> SettleAndProject([l] + rest).Failure?
    ensures l.Fulfilled? && l.offer.error ==> SettleAndProject([l] + rest) == SettleAndProject(rest)
    ensures l.Fulfilled? && !l.offer.error && Project(l.offer).Failure? ==>
      SettleAndProject([l] + rest).Failure?
    ensures l.Fulfilled? && !l.offer.error && Project(l.offer).Success? ==>
      && (SettleAndProject([l] + rest).Success? <==> SettleAndProject(rest).Success?)
      && (SettleAndProject(rest).Success? ==>
            SettleAndProject([l] + rest).value == [Project(l.offer).value] + SettleAndProject(rest).value)
  {
    var ls := [l] + rest;
    assert ls[1..] == rest;
    if l.Fulfilled? {
      var o := l.offer;
      match AllFulfilled(rest)
      case Failure(_) =>
      case Success(resolvedTail) =>
        var resolved := [o] + resolvedTail;
        assert AllFulfilled(ls) == Success(resolved);
        assert resolved[1..] == resolvedTail;
        var keptTail := Filter(resolvedTail, NoError);
        if !o.error {
          var kept := [o] + keptTail;
          assert Filter(resolved, NoError) == kept;
          assert kept[1..] == keptTail;
        } else {
          assert Filter(resolved, NoError) == keptTail;
        }
    }
  }

  /** The filter/map/filter/map pipeline and the element-at-a-time walk
      agree: one succeeds exactly when the other does, with the same offers. */
  lemma {:induction false} PipelineMatchesWalk(elements: seq<CatalogElement>, locale: string, resolver: Resolver)
    ensures FreeGamesPromotions(elements, locale, resolver).Success?
        <==> ClaimableOffers(elements, locale, resolver).Success?
    ensures FreeGamesPromotions(elements, locale, resolver).Success? ==>
      FreeGamesPromotions(elements, locale, resolver).value == ClaimableOffers(elements, locale, resolver).value
    decreases |elements|
  {
    if |elements| > 0 {
      var e, tail := elements[0], elements[1..];
      PipelineMatchesWalk(tail, locale, resolver);
      var freeTail := Filter(tail, IsFreeCandidate);
      if IsFreeCandidate(e) {
        var free := [e] + freeTail;
        assert Filter(elements, IsFreeCandidate) == free;
        assert free[1..] == freeTail;
        assert ResolveEach(free, locale, resolver)
            == [Resolve(e, locale, resolver)] + ResolveEach(freeTail, locale, resolver);
        SettleCons(Resolve(e, locale, resolver), ResolveEach(freeTail, locale, resolver));
      } else {
        assert Filter(elements, IsFreeCandidate) == freeTail;
      }
    }
  }

  /** A bundle answer whose first page carries `ref` projects exactly like a
      product answer carrying `ref` directly: the two shapes only differ in
      where the offer reference sits. */
  lemma ShapesProjectAlike(error: bool, name: Option<string>, title: Option<string>, ref: OfferRef, later: seq<Page>)
    ensures Project(ResolvedOffer(error, name, title, Paginated([Page(ref)] + later)))
         == Project(ResolvedOffer(error, name, title, Direct(ref)))
  {
  }

  /** An element with a 0% entry in its first window is selected; one whose
      only entry is 50% off, or one without promotions, is not. */
  lemma SelectsOnlyFullyDiscounted(slug: string, cats: seq<Category>, rest: seq<OfferWindow>)
    ensures IsFreeCandidate(CatalogElement(slug,
      Some(PromotionInfo([OfferWindow([PromotionEntry(DiscountSetting(0))])] + rest)), cats))
    ensures !IsFreeCandidate(CatalogElement(slug,
      Some(PromotionInfo([OfferWindow([PromotionEntry(DiscountSetting(50))])] + rest)), cats))
    ensures !IsFreeCandidate(CatalogElement(slug, None, cats))
    ensures !IsFreeCandidate(CatalogElement(slug, Some(PromotionInfo([])), cats))
  {
    var free := PromotionInfo([OfferWindow([PromotionEntry(DiscountSetting(0))])] + rest);
    assert free.promotionalOffers[0].promotionalOffers[0].discountSetting.discountPercentage == 0;
  }

  /** Three free candidates whose second lookup reports an error: the result
      holds the first and third projections, in that order. */
  lemma ErrorAnswerIsDropped(a: CatalogElement, b: CatalogElement, c: CatalogElement,
                             locale: string, resolver: Resolver,
                             oa: ResolvedOffer, ob: ResolvedOffer, oc: ResolvedOffer)
    requires IsFreeCandidate(a) && IsFreeCandidate(b) && IsFreeCandidate(c)
    requires Resolve(a, locale, resolver) == Fulfilled(oa) && !oa.error && Project(oa).Success?
    requires Resolve(b, locale, resolver) == Fulfilled(ob) && ob.error
    requires Resolve(c, locale, resolver) == Fulfilled(oc) && !oc.error && Project(oc).Success?
    ensures FreeGamesPromotions([a, b, c], locale, resolver)
         == Success([Project(oa).value, Project(oc).value])
  {
    var es := [a, b, c];
    assert forall i :: 0 <= i < |es| ==> IsFreeCandidate(es[i]);
    CandidatesGoStraightToLookup(es, locale, resolver);
    ResolveThree(a, b, c, locale, resolver);
    assert ResolveEach(es, locale, resolver) == [Fulfilled(oa), Fulfilled(ob), Fulfilled(oc)];
    SettleDropsSecond(oa, ob, oc);
  }

  /** When every element is a candidate, the pipeline resolves them all. */
  lemma CandidatesGoStraightToLookup(es: seq<CatalogElement>, locale: string, resolver: Resolver)
    requires forall i :: 0 <= i < |es| ==> IsFreeCandidate(es[i])
    ensures FreeGamesPromotions(es, locale, resolver) == SettleAndProject(ResolveEach(es, locale, resolver))
  {
    FilterKeepsAll(es);
  }

  lemma ResolveThree(a: CatalogElement, b: CatalogElement, c: CatalogElement, locale: string, resolver: Resolver)
    ensures ResolveEach([a, b, c], locale, resolver)
         == [Resolve(a, locale, resolver), Resolve(b, locale, resolver), Resolve(c, locale, resolver)]
  {
  }

  /** The join over three fulfilled lookups whose second is flagged `error`. */
  lemma SettleDropsSecond(oa: ResolvedOffer, ob: ResolvedOffer, oc: ResolvedOffer)
    requires !oa.error && Project(oa).Success?
    requires ob.error
    requires !oc.error && Project(oc).Success?
    ensures SettleAndProject([Fulfilled(oa), Fulfilled(ob), Fulfilled(oc)])
         == Success([Project(oa).value, Project(oc).value])
  {
    var la, lb, lc := Fulfilled(oa), Fulfilled(ob), Fulfilled(oc);
    var pa, pc := Project(oa).value, Project(oc).value;
    assert SettleAndProject([]) == Success([]);
    assert [lc] + [] == [lc] && [la] + [lb, lc] == [la, lb, lc];
    assert [pa] + ([pc] + []) == [pa, pc];
    SettleCons(lc, []);
    SettleCons(lb, [lc]);
    SettleCons(la, [lb, lc]);
  }

  /** Filtering a list of candidates by candidacy keeps it whole. */
  lemma {:induction false} FilterKeepsAll(es: seq<CatalogElement>)
    requires forall i :: 0 <= i < |es| ==> IsFreeCandidate(es[i])
    ensures Filter(es, IsFreeCandidate) == es
  {
    if |es| > 0 {
      FilterKeepsAll(es[1..]);
      assert es == [es[0]] + es[1..];
    }
  }
}

=== FILE: run_loop.dfy ===
/** The process around the per-account run (claimer.js lines 69-84 and
    86-163): the command-line override, the accounts taken strictly one after
    another with the shared cookie list carried from each to the next, and the
    repeat-after-delay loop, observed for a bounded number of rounds. */
module RunLoop {
  import opened Wrappers
  import opened AccountRun

  /** `config.json`; `delay` only sets the sleep between rounds, which the
      model does not observe. */
  datatype Config = Config(accounts: seq<Account>, options: Option<Options>, delay: int, loop: bool)

  /** Positional arguments 2 to 6. `remember` is `Boolean(Number(argv[4]))`
      already evaluated. */
  datatype CommandLine = CommandLine(
    email: string,
    password: Option<string>,
    remember: bool,
    secret: Option<string>,
    cookies: Option<string>)

  /** The accounts to run and whether to repeat. */
  datatype Plan = Plan(accounts: seq<Account>, loop: bool)

  /** How the process ends: an exit status, or still waiting to start another
      round when the observation stops. */
  datatype Exit = ExitCode(code: int) | StillLooping

  /** The one account lines 77-83 build from the arguments. */
  function AccountFromArgs(args: CommandLine): Account {
    Account(args.email, args.password, args.remember, args.secret,
            if args.cookies.Some? then CookieText(args.cookies.value) else NoCookies,
            None)
  }

  /** Lines 75-84: arguments on the command line replace the configured
      accounts by exactly one account and switch looping off. */
  function ApplyCommandLine(accounts: seq<Account>, loop: bool, args: Option<CommandLine>): (p: Plan)
    ensures args.None? ==> p == Plan(accounts, loop)
    ensures args.Some? ==> !p.loop && |p.accounts| == 1
    ensures args.Some? ==>
      && p.accounts[0].email == args.value.email
      && p.accounts[0].password == args.value.password
      && p.accounts[0].rememberLastSession == args.value.remember
      && p.accounts[0].secret == args.value.secret
      && p.accounts[0].twoFactorCode.None?
      && p.accounts[0].cookies == (if args.value.cookies.Some? then CookieText(args.value.cookies.value) else NoCookies)
  {
    if args.Some? then Plan([AccountFromArgs(args.value)], false) else Plan(accounts, loop)
  }

  predicate AllNumeric(envs: seq<Env>) {
    forall i :: 0 <= i < |envs| ==> PageCookiesNumeric(envs[i].pageCookies)
  }

  /** An account's run that claimed its offers and logged out. */
  predicate AccountCompletes(env: Env) {
    ReachesClaims(env) && env.logoutOk
  }

  /** Reference for how far a round gets: up to and including the first
      account whose run aborts, or all of them. */
  function RoundLength(envs: seq<Env>): (n: nat)
    ensures n <= |envs|
    ensures n == 0 <==> |envs| == 0
  {
    if |envs| == 0 then 0
    else if !AccountCompletes(envs[0]) then 1
    else 1 + RoundLength(envs[1..])
  }

  /** The shared options after one account (lines 103-115): carried over only
      when the account fell back to the browser and asks to be remembered. */
  function NextOptions(account: Account, options: Options, env: Env): (r: Options)
    ensures Extends(options.cookies, r.cookies)
    ensures !account.rememberLastSession ==> r == options
  {
    if FellBack(env) && account.rememberLastSession
    then CarriedOver(options, account.cookies, env.jarCookies) else options
  }

  /** The shared options after the first `n` accounts of a round, each
      handing its options to the next. */
  function RoundOptions(accounts: seq<Account>, options: Options, envs: seq<Env>, n: nat): (r: Options)
    requires n <= |accounts| == |envs|
    ensures Extends(options.cookies, r.cookies)
  {
    if n == 0 then options
    else
      var before := RoundOptions(accounts, options, envs, n - 1);
      ExtendsTransitive(options.cookies, before.cookies, NextOptions(accounts[n - 1], before, envs[n - 1]).cookies);
      NextOptions(accounts[n - 1], before, envs[n - 1])
  }

  /** When no account of the round asks to be remembered, the shared options
      come out of the round as they went in. */
  lemma {:induction false} ForgetfulRoundKeepsOptions(accounts: seq<Account>, options: Options, envs: seq<Env>, n: nat)
    requires n <= |accounts| == |envs|
    requires forall j :: 0 <= j < n ==> !accounts[j].rememberLastSession
    ensures RoundOptions(accounts, options, envs, n) == options
  {
    if n > 0 {
      ForgetfulRoundKeepsOptions(accounts, options, envs, n - 1);
    }
  }

  lemma RoundOptionsStep(accounts: seq<Account>, options: Options, envs: seq<Env>, n: nat)
    requires n < |accounts| == |envs|
    ensures RoundOptions(accounts, options, envs, n + 1)
         == NextOptions(accounts[n], RoundOptions(accounts, options, envs, n), envs[n])
  {
  }

  /** An account's status says whether its own run completed and, for the
      failures the run names, why it aborted. */
  predicate StatusFits(env: Env, status: Status) {
    && (status == Completed <==> AccountCompletes(env))
    && (!env.initOk ==> status == Aborted(InitFailed))
    && (FellBack(env) && env.adapter.ExchangeCode? && !env.exchangeLoginOk ==> status == Aborted(ExchangeLoginFailed))
    && (ReachesClaims(env) && !env.logoutOk ==> status == Aborted(LogoutFailed))
  }

  /** The trace of `account`'s run, which leaves the shared options as
      `after`: it starts with the client's init; a failed init ends it there,
      otherwise the direct login carrying the two-factor code `token` derives
      comes next; after a failed direct login the adapter is handed the
      cookie list `after` holds; it claims exactly when its offers resolve:
      every offer purchased in order, then logout. */
  ghost predicate TraceFits(account: Account, token: string -> string, after: Options, env: Env, trace: seq<Event>) {
    && |trace| > 0 && trace[0] == Init
    && (!env.initOk ==> trace == [Init])
    && (env.initOk ==> |trace| >= 2 && trace[1] == DirectLogin(AttachTwoFactorCode(account, token).twoFactorCode))
    && (FellBack(env) ==> |trace| >= 3 && trace[2] == AdapterInit(after.cookies))
    && (ReachesClaims(env) ==> ClaimsThenLogout(trace, OffersFor(env).value, env.purchase))
    && (!ReachesClaims(env) ==> NoClaims(trace))
  }

  /** The first `|statuses|` accounts of a round were run: each status and
      each trace fits that account's own run, which leaves the shared options
      as the round's carry-over up to and including it (`RoundOptions`, the
      round having started with `options`). */
  ghost predicate Visited(statuses: seq<Status>, traces: seq<seq<Event>>, envs: seq<Env>,
                          accounts: seq<Account>, options: Options, token: string -> string)
    decreases |statuses|
  {
    && |traces| == |statuses| <= |envs| == |accounts|
    && (|statuses| > 0 ==>
      && Visited(statuses[..|statuses| - 1], traces[..|traces| - 1], envs, accounts, options, token)
      && StatusFits(envs[|statuses| - 1], statuses[|statuses| - 1])
      && TraceFits(accounts[|traces| - 1], token, RoundOptions(accounts, options, envs, |traces|),
                   envs[|traces| - 1], traces[|traces| - 1]))
  }

  /** Every account a round visited has a status and a trace that fit its
      own run. */
  lemma {:induction false} VisitedAt(statuses: seq<Status>, traces: seq<seq<Event>>, envs: seq<Env>,
                                     accounts: seq<Account>, options: Options, token: string -> string, i: nat)
    requires Visited(statuses, traces, envs, accounts, options, token) && i < |statuses|
    ensures StatusFits(envs[i], statuses[i])
    ensures TraceFits(accounts[i], token, RoundOptions(accounts, options, envs, i + 1), envs[i], traces[i])
    decreases |statuses|
  {
    var n := |statuses| - 1;
    if i < n {
      VisitedAt(statuses[..n], traces[..n], envs, accounts, options, token, i);
    }
  }

  lemma VisitedStatuses(statuses: seq<Status>, traces: seq<seq<Event>>, envs: seq<Env>,
                        accounts: seq<Account>, options: Options, token: string -> string)
    requires Visited(statuses, traces, envs, accounts, options, token)
    ensures forall i :: 0 <= i < |statuses| ==> StatusFits(envs[i], statuses[i])
  {
    forall i | 0 <= i < |statuses|
      ensures StatusFits(envs[i], statuses[i])
    {
      VisitedAt(statuses, traces, envs, accounts, options, token, i);
    }
  }

  /** The first `n` accounts carry their two-factor code, the rest are as
      they were. */
  predicate Prepared(accounts: seq<Account>, accounts': seq<Account>, n: nat, token: string -> string) {
    && |accounts'| == |accounts|
    && (forall i :: 0 <= i < n <= |accounts| ==> accounts'[i] == AttachTwoFactorCode(accounts[i], token))
    && (forall i :: n <= i < |accounts| ==> accounts'[i] == accounts[i])
  }

  /** Lines 86-155: the accounts in order, each run to completion before the
      next starts, the shared options handed from each to the next; the first
      fatal error ends the round. */
  method RunRound(accounts: seq<Account>, options: Options, envs: seq<Env>, token: string -> string)
    returns (statuses: seq<Status>, accounts': seq<Account>, options': Options, traces: seq<seq<Event>>)
    requires |envs| == |accounts|
    requires AllNumeric(envs)
    ensures Visited(statuses, traces, envs, accounts, options, token)
    ensures |statuses| < |accounts| ==> |statuses| > 0 && statuses[|statuses| - 1].Aborted?
    ensures forall i :: 0 <= i < |statuses| - 1 ==> statuses[i] == Completed
    ensures Prepared(accounts, accounts', |statuses|, token)
    ensures options' == RoundOptions(accounts, options, envs, |statuses|)
  {
    statuses, accounts', options', traces := [], accounts, options, [];
    var i := 0;
    while i < |accounts|
      invariant i <= |accounts| && |statuses| == i
      invariant Visited(statuses, traces, envs, accounts, options, token)
      invariant forall j :: 0 <= j < i ==> statuses[j] == Completed
      invariant Prepared(accounts, accounts', i, token)
      invariant options' == RoundOptions(accounts, options, envs, i)
    {
      var status;
      status, traces, accounts', options' := VisitNext(accounts, options, envs, token, statuses, traces, accounts', options');
      statuses := statuses + [status];
      i := i + 1;
      if status.Aborted? {
        return;
      }
    }
  }

  /** The loop body of a round: the next account run, its status and trace
      recorded, its two-factor code kept and the shared options handed on. */
  method VisitNext(accounts: seq<Account>, options: Options, envs: seq<Env>, token: string -> string,
                   statuses: seq<Status>, traces: seq<seq<Event>>, prepared: seq<Account>, current: Options)
    returns (status: Status, traces': seq<seq<Event>>, prepared': seq<Account>, current': Options)
    requires Visited(statuses, traces, envs, accounts, options, token) && |statuses| < |envs|
    requires AllNumeric(envs)
    requires Prepared(accounts, prepared, |statuses|, token)
    requires current == RoundOptions(accounts, options, envs, |statuses|)
    ensures Visited(statuses + [status], traces', envs, accounts, options, token)
    ensures Prepared(accounts, prepared', |statuses| + 1, token)
    ensures current' == RoundOptions(accounts, options, envs, |statuses| + 1)
  {
    var i := |statuses|;
    var account, trace;
    RoundOptionsStep(accounts, options, envs, i);
    status, account, current', trace := VisitAccount(accounts[i], current, envs[i], token);
    ExtendFits(statuses, traces, envs, accounts, options, token, status, trace);
    traces', prepared' := traces + [trace], prepared[i := account];
  }

  lemma ExtendFits(statuses: seq<Status>, traces: seq<seq<Event>>, envs: seq<Env>,
                   accounts: seq<Account>, options: Options, token: string -> string, status: Status, trace: seq<Event>)
    requires Visited(statuses, traces, envs, accounts, options, token) && |statuses| < |envs|
    requires StatusFits(envs[|statuses|], status)
    requires TraceFits(accounts[|statuses|], token, RoundOptions(accounts, options, envs, |statuses| + 1), envs[|statuses|], trace)
    ensures Visited(statuses + [status], traces + [trace], envs, accounts, options, token)
  {
    var s, t := statuses + [status], traces + [trace];
    assert s[..|s| - 1] == statuses && s[|s| - 1] == status;
    assert t[..|t| - 1] == traces && t[|t| - 1] == trace;
  }

  /** Every account's run in `envs` completes. */
  predicate AllComplete(envs: seq<Env>) {
    forall i :: 0 <= i < |envs| ==> AccountCompletes(envs[i])
  }

  /** The facts `RunRound` states about the statuses of a round. */
  predicate RoundOutcome(statuses: seq<Status>, envs: seq<Env>) {
    && |statuses| <= |envs|
    && (|statuses| < |envs| ==> |statuses| > 0 && statuses[|statuses| - 1].Aborted?)
    && (forall i :: 0 <= i < |statuses| - 1 ==> statuses[i] == Completed)
    && (forall i :: 0 <= i < |statuses| ==> StatusFits(envs[i], statuses[i]))
  }

  /** A round visits exactly `RoundLength` accounts: it stops right after
      the first account whose run aborts. */
  lemma {:induction false} RoundStopsAtFirstAbort(statuses: seq<Status>, envs: seq<Env>)
    requires RoundOutcome(statuses, envs)
    ensures |statuses| == RoundLength(envs)
  {
    if |envs| > 0 {
      assert StatusFits(envs[0], statuses[0]);
      if AccountCompletes(envs[0]) && |statuses| > 1 {
        var s, e := statuses[1..], envs[1..];
        forall i | 0 <= i < |s|
          ensures StatusFits(e[i], s[i])
        {
          assert StatusFits(envs[i + 1], statuses[i + 1]);
        }
        RoundStopsAtFirstAbort(s, e);
      }
    }
  }

  /** A round completes every account exactly when every account's run
      completes, and a round that did not end in an abort visited every
      account. */
  lemma RoundCompletesIff(statuses: seq<Status>, envs: seq<Env>)
    requires RoundOutcome(statuses, envs)
    ensures (|statuses| == |envs| && forall i :: 0 <= i < |statuses| ==> statuses[i] == Completed)
        <==> AllComplete(envs)
    ensures !(|statuses| > 0 && statuses[|statuses| - 1].Aborted?) ==>
      |statuses| == |envs| && forall i :: 0 <= i < |statuses| ==> statuses[i] == Completed
  {
    var n := |statuses|;
    if AllComplete(envs) {
      if n < |envs| {
        assert StatusFits(envs[n - 1], statuses[n - 1]);
      }
      forall i | 0 <= i < n
        ensures statuses[i] == Completed
      {
        assert StatusFits(envs[i], statuses[i]);
      }
    }
    if n == |envs| && forall i :: 0 <= i < n ==> statuses[i] == Completed {
      forall i | 0 <= i < |envs|
        ensures AccountCompletes(envs[i])
      {
        assert StatusFits(envs[i], statuses[i]);
      }
    }
    if !(n > 0 && statuses[n - 1].Aborted?) {
      forall i | 0 <= i < n
        ensures statuses[i] == Completed
      {
        if i == n - 1 {
          assert !statuses[i].Aborted?;
        }
      }
    }
  }

  /** One pass of the loop body for the round: `RunAccount` and what it
      promises the round. */
  method VisitAccount(account: Account, options: Options, env: Env, token: string -> string)
    returns (status: Status, account': Account, options': Options, trace: seq<Event>)
    requires PageCookiesNumeric(env.pageCookies)
    ensures account' == AttachTwoFactorCode(account, token)
    ensures StatusFits(env, status) && TraceFits(account, token, options', env, trace)
    ensures options' == NextOptions(account, options, env)
  {
    status, account', options', trace := RunAccount(account, options, env, token);
  }

  /** A round as the process loop sees it: how far it got and whether each
      visited account completed. */
  method PlayRound(accounts: seq<Account>, options: Options, envs: seq<Env>, token: string -> string)
    returns (statuses: seq<Status>, accounts': seq<Account>, options': Options)
    requires |envs| == |accounts|
    requires AllNumeric(envs)
    ensures RoundOutcome(statuses, envs)
    ensures |statuses| == RoundLength(envs)
    ensures !(|statuses| > 0 && statuses[|statuses| - 1].Aborted?) ==>
      |statuses| == |envs| && forall i :: 0 <= i < |statuses| ==> statuses[i] == Completed
    ensures (|statuses| == |envs| && forall i :: 0 <= i < |statuses| ==> statuses[i] == Completed)
        <==> AllComplete(envs)
    ensures |accounts'| == |accounts|
    ensures Prepared(accounts, accounts', |statuses|, token)
    ensures Extends(options.cookies, options'.cookies)
  {
    var traces;
    statuses, accounts', options', traces := RunRound(accounts, options, envs, token);
    VisitedStatuses(statuses, traces, envs, accounts, options, token);
    RoundStopsAtFirstAbort(statuses, envs);
    RoundCompletesIff(statuses, envs);
  }

  lemma ExtendsTransitive(a: Option<seq<CookieEntry>>, b: Option<seq<CookieEntry>>, c: Option<seq<CookieEntry>>)
    requires Extends(a, b) && Extends(b, c)
    ensures Extends(a, c)
  {
  }

  /** How a round ended, as the process sees it: `statuses` covers the
      accounts up to the first abort, each status fits its account's run,
      exit status 1 follows exactly a round that ended in an abort, and an
      exit status of 0 means every account of the round completed. */
  ghost predicate RoundEnded(exit: Exit, statuses: seq<Status>, envs: seq<Env>) {
    && RoundOutcome(statuses, envs)
    && |statuses| == RoundLength(envs)
    && (exit == ExitCode(1) <==> |statuses| > 0 && statuses[|statuses| - 1].Aborted?)
    && (exit != ExitCode(1) ==> |statuses| == |envs| && forall i :: 0 <= i < |statuses| ==> statuses[i] == Completed)
    && (exit.ExitCode? ==> (exit == ExitCode(0) <==> AllComplete(envs)))
  }

  /** One pass of the `do … while` body (lines 75-162): the command-line
      override, the round, and the decision to exit or to go round again. */
  method NextRound(accounts: seq<Account>, loop: bool, options: Options, args: Option<CommandLine>,
                   envs: seq<Env>, token: string -> string)
    returns (exit: Exit, accounts': seq<Account>, loop': bool, options': Options, statuses: seq<Status>)
    requires |envs| == (if args.Some? then 1 else |accounts|)
    requires AllNumeric(envs)
    ensures loop' == (args.None? && loop) == ApplyCommandLine(accounts, loop, args).loop
    ensures |accounts'| == (if args.Some? then 1 else |accounts|)
    ensures Prepared(ApplyCommandLine(accounts, loop, args).accounts, accounts', |statuses|, token)
    ensures RoundEnded(exit, statuses, envs)
    ensures exit == ExitCode(1) <==> !AllComplete(envs)
    ensures exit.StillLooping? <==> exit != ExitCode(1) && loop'
    ensures exit.ExitCode? ==> exit.code == 0 || exit.code == 1
    ensures Extends(options.cookies, options'.cookies)
  {
    var plan := ApplyCommandLine(accounts, loop, args);
    loop' := plan.loop;
    statuses, accounts', options' := PlayRound(plan.accounts, options, envs, token);
    if |statuses| > 0 && statuses[|statuses| - 1].Aborted? {
      exit := ExitCode(1);
    } else if !loop' {
      exit := ExitCode(0);
    } else {
      exit := StillLooping;
    }
  }

  /** Lines 69-163, observed for at most `|envs|` rounds, `envs[r]` being
      what the outside world answers during round `r`: options default to
      `{}`; a failed round exits with 1, a round without looping exits with
      0, otherwise the process sleeps `delay` minutes and starts over with the
      accounts and cookie list the previous round left. `last` holds the
      statuses of the final round. */
  method RunProcess(cfg: Config, args: Option<CommandLine>, envs: seq<seq<Env>>, token: string -> string)
    returns (exit: Exit, rounds: nat, last: seq<Status>, options': Options)
    requires forall r :: 0 <= r < |envs| ==> |envs[r]| == |ApplyCommandLine(cfg.accounts, cfg.loop, args).accounts|
    requires forall r :: 0 <= r < |envs| ==> AllNumeric(envs[r])
    ensures rounds <= |envs|
    ensures (args.Some? || !cfg.loop) && |envs| > 0 ==> rounds == 1 && exit.ExitCode?
    ensures exit.StillLooping? ==> rounds == |envs| && (rounds > 0 ==> args.None? && cfg.loop)
    ensures exit.ExitCode? ==> 0 < rounds && (exit.code == 0 || exit.code == 1)
    ensures rounds == 0 ==> last == []
    ensures 0 < rounds ==> RoundEnded(exit, last, envs[rounds - 1])
    ensures exit.ExitCode? ==> (exit.code == 1 <==> !AllComplete(envs[rounds - 1]))
    ensures forall r :: 0 <= r < rounds - 1 ==> AllComplete(envs[r])
    ensures exit.StillLooping? ==> forall r :: 0 <= r < rounds ==> AllComplete(envs[r])
    ensures args.None? && cfg.loop ==> exit != ExitCode(0)
    ensures args.None? && cfg.loop && (forall r :: 0 <= r < |envs| ==> AllComplete(envs[r])) ==> exit.StillLooping?
    ensures Extends(cfg.options.GetOr(Options(None)).cookies, options'.cookies)
  {
    var accounts, loop := cfg.accounts, cfg.loop;
    options' := cfg.options.GetOr(Options(None));
    ghost var initial := options';
    ghost var n := |ApplyCommandLine(cfg.accounts, cfg.loop, args).accounts|;
    exit, rounds, last := StillLooping, 0, [];
    while rounds < |envs|
      invariant rounds == 0 || rounds < |envs|
      invariant rounds > 0 ==> args.None? && cfg.loop && loop
      invariant args.None? ==> |accounts| == n && loop == cfg.loop
      invariant Extends(initial.cookies, options'.cookies)
      invariant rounds == 0 ==> last == []
      invariant forall r :: 0 <= r < rounds ==> AllComplete(envs[r])
    {
      var next, options2;
      var round := envs[rounds];
      next, accounts, loop, options2, last := NextRound(accounts, loop, options', args, round, token);
      ExtendsTransitive(initial.cookies, options'.cookies, options2.cookies);
      options' := options2;
      rounds := rounds + 1;
      if next.ExitCode? || rounds == |envs| {
        exit := next;
        return;
      }
    }
  }
}

=== FILE: seqs.dfy ===
/** The array operations the script relies on (`find`, `filter`, `map`),
    written as recursive functions over sequences with their contracts. */
module Seqs {
  import opened Wrappers

  /** `a` occurs in `b` in the same relative order, possibly with gaps. */
  ghost predicate IsSubsequence<T>(a: seq<T>, b: seq<T>)
    decreases |b|
  {
    || |a| == 0
    || (&& |b| > 0
        && ((a[0] == b[0] && IsSubsequence(a[1..], b[1..])) || IsSubsequence(a, b[1..])))
  }

  /** Index of the first element satisfying `p`, the way `Array.prototype.find`
      scans; `None` when no element does. */
  function FindFirst<T>(s: seq<T>, p: T -> bool): (r: Option<nat>)
    ensures r.Some? ==> r.value < |s| && p(s[r.value])
    ensures r.Some? ==> forall j :: 0 <= j < r.value ==> !p(s[j])
    ensures r.None? <==> forall j :: 0 <= j < |s| ==> !p(s[j])
  {
    if |s| == 0 then None
    else if p(s[0]) then Some(0)
    else match FindFirst(s[1..], p)
      case None => None
      case Some(i) => Some(i + 1)
  }

  /** `Array.prototype.filter`: the elements satisfying `p`, all of them, in order. */
  function Filter<T>(s: seq<T>, p: T -> bool): (r: seq<T>)
    ensures |r| <= |s|
    ensures forall i :: 0 <= i < |r| ==> p(r[i])
    ensures multiset(r) <= multiset(s)
    ensures forall i :: 0 <= i < |s| && p(s[i]) ==> multiset(r)[s[i]] == multiset(s)[s[i]]
    ensures IsSubsequence(r, s)
  {
    if |s| == 0 then []
    else
      assert s == [s[0]] + s[1..];
      assert multiset(s) == multiset{s[0]} + multiset(s[1..]);
      assert forall i :: 1 <= i < |s| ==> s[i] == s[1..][i - 1];
      var rest := Filter(s[1..], p);
      if p(s[0]) then
        assert ([s[0]] + rest)[1..] == rest;
        assert multiset([s[0]] + rest) == multiset{s[0]} + multiset(rest);
        [s[0]] + rest
      else
        rest
  }

  /** `Array.prototype.map` with a total callback. */
  function Map<T, U>(s: seq<T>, f: T -> U): (r: seq<U>)
    ensures |r| == |s|
    ensures forall i :: 0 <= i < |s| ==> r[i] == f(s[i])
  {
    if |s| == 0 then [] else [f(s[0])] + Map(s[1..], f)
  }

  /** A sequence made of `prefix` followed by `f` applied to each of `s`. */
  lemma PrefixThenMap<T, U>(r: seq<U>, prefix: seq<U>, s: seq<T>, f: T -> U)
    requires |r| == |prefix| + |s|
    requires r[..|prefix|] == prefix
    requires forall j :: 0 <= j < |s| ==> r[|prefix| + j] == f(s[j])
    ensures r == prefix + Map(s, f)
  {
    var m := Map(s, f);
    assert forall j :: |prefix| <= j < |r| ==> r[j] == m[j - |prefix|];
  }
}

=== FILE: wrappers.dfy ===
/** Option and Result datatypes shared by the model: `Option` for JavaScript
    values that may be `undefined`, `Result` for calls that may throw. */
module Wrappers {

  datatype Option<+T> = None | Some(value: T) {

    /** The wrapped value, or `default` when there is none (`x ?? default`). */
    function GetOr(default: T): T {
      match this
      case Some(v) => v
      case None => default
    }
  }

  datatype Result<+T, +E> = Success(value: T) | Failure(error: E)
}
